=== FILE: README.md ===
# Userbot plug-in logic, modelled in Dafny

A model of the stateful and data-shaping logic of four plug-ins of a
Telegram userbot:

- **AlertsUa** (`alerts_ua.dfy`): the table of Ukraine's 27 oblasts with their
  1-based UIDs (`uid_map`), and the per-endpoint response cache with its
  300-second freshness window. `get_cached` returns an entry while it is fresh
  and deletes it in place once it is stale. The cache is a class whose
  `cache` field is a `map`, and the clock is an integer `now` argument.
  `api_request`, its cache write path and the polling task are not modelled;
  `Put` stands in for the write path.
- **Weather** (`weather.dfy`): translating OpenWeatherMap descriptions
  through the case-insensitive table with fall-back to the original text,
  the unit labels chosen by the `UNITS` setting, the "Н/Д" visibility rule,
  the once-a-day sampling (`list[::8]`) of the 5-day forecast as a loop, and
  which reply the `weather` and `forecast` commands send.
- **SteamDiscounts** (`discount.dfy`): the loop that keeps the
  `featured_win` games with a positive `discount_percent`, in order, with
  defaults for absent fields. Every failure (exception, non-200 status,
  a non-numeric field) yields `None`. Then the `discounts` command's reply:
  "no discounts" for `None` and for an empty list alike, otherwise one text
  block per game joined by newlines. Prices stay in integer kopecks.
- **AutoBold** (`bold.dfy`): the `enabled` flag (default on) that
  `autoboldtoggle` flips, and the watcher that edits an outgoing message to
  `**text**` only when the flag is on, the text is non-empty and the message
  has no entities.

HTTP answers are inputs: a status code with a decoded body, or (for the
Steam call) an exception. Telegram calls are recorded as the reply or edit
text that would be sent.

## Model

| member | source | states |
|---|---|---|
| `AlertsUa.OblastsAreDistinct` | alerts_ua.py:39-47 | the oblast list has 27 names, pairwise different |
| `AlertsUa.NumberFromOne` | alerts_ua.py:48 | the enumerate comprehension has exactly the listed names as keys; every number lies in 1..n and points back at a position holding that name |
| `AlertsUa.NumberFromOneIsLast` | alerts_ua.py:48 | a repeated name keeps the number of its last occurrence: no later position holds that name |
| `AlertsUa.NumberFromOneAt` | alerts_ua.py:48 | with no repeated name, the i-th name is numbered i + 1 |
| `AlertsUa.DistinctCount` | alerts_ua.py:39-48 | a list without repeats has as many distinct names as entries, so the dict loses no name |
| `AlertsUa.UidMapNumbersInOrder` | alerts_ua.py:39-48 | `uid_map[oblasts[i]] == i + 1` for every position |
| `AlertsUa.NumberFromOneIsBijection` | alerts_ua.py:48 | numbering a list without repeated names gives one key per entry, values exactly 1..n, and no two names sharing a number |
| `AlertsUa.UidMapIsBijection` | alerts_ua.py:39-48 | `uid_map` has 27 keys (the oblast names), its values are exactly 1..27, and it is injective |
| `AlertsUa.Lookup` | alerts_ua.py:62-71 | data is returned iff the key is cached and `now - timestamp < ttl`; a hit leaves the cache as it was; a miss leaves the cache minus that key; no other key is added, changed or removed |
| `AlertsUa.LookupAbsent` | alerts_ua.py:64-71 | looking up an uncached key returns `None` and leaves the cache unchanged |
| `AlertsUa.EvictionIsIdempotent` | alerts_ua.py:69-71 | a stale lookup returns `None` and removes the key; a second lookup, at any time, returns `None` and changes nothing |
| `AlertsUa.StoredValueLivesForTtl` | alerts_ua.py:64-68 | a value stored at `t0` is returned at `t1` exactly when `t1 - t0 < ttl` |
| `AlertsUa.MissPersists` | alerts_ua.py:64-71 | a lookup that returns `None` at some time returns `None` at every later time on the same cache |
| `AlertsUa.AlertsUaModule.constructor` | alerts_ua.py:37-50 | the module starts with the oblast list, `uid_map`, an empty cache and a TTL of 300 |
| `AlertsUa.AlertsUaModule.GetCached` | alerts_ua.py:62-71 | the returned value and the new cache are those `Lookup` gives for the old cache |
| `Weather.LowerChar` | weather.py:88 | an ASCII capital becomes its small letter, the Kelvin sign becomes "k", every other character is kept |
| `Weather.Lower` | weather.py:88 | the lowered text has the same length, each character lowered in place, and no ASCII capital |
| `Weather.LowerIsIdempotent` | weather.py:88 | lowering twice is lowering once |
| `Weather.Translate` | weather.py:88 | a lowered description that is a table key gives the table's text; any other description comes back unchanged, with its case; the result is a table text or the input |
| `Weather.TranslateIgnoresCase` | weather.py:116 | two spellings that lower to the same table key translate to the same text |
| `Weather.TranslateCapitalised` | weather.py:71 | "Shower Drizzle" translates to "зливова мряка" |
| `Weather.TempUnit` | weather.py:89 | the label is "°C" iff `UNITS` is "metric", otherwise "°F" |
| `Weather.WindUnit` | weather.py:90 | the label is "м/с" iff `UNITS` is "metric", otherwise "миль/год" |
| `Weather.VisibilityOf` | weather.py:98 | visibility is "Н/Д" iff it is absent, null or zero; otherwise the reported value is kept |
| `Weather.GetWeather` | weather.py:81-104 | a report exists iff the status is 200; it carries the API's city name, temperature, humidity, wind speed and pressure unchanged, the translated description, the visibility rule and both unit labels |
| `Weather.EveryEighthAt` | weather.py:113 | `s[::8]` has ceil(n/8) elements, the k-th being `s[8k]` |
| `Weather.GetForecast` | weather.py:106-125 | `None` iff the status is not 200; otherwise ceil(n/8) days, the k-th shaped from list entry 8k with translated description and temperature label |
| `Weather.ForecastSamplesEveryEighth` | weather.py:113-123 | the days `GetForecast` returns are the entries of `list[::8]`, one for one, in order |
| `Weather.WeatherCmd` | weather.py:127-151 | empty arguments give the no-city reply and no request; otherwise the city is requested, the reply is the fetch error iff the status is not 200, and a 200 answer gives the report `get_weather` shapes |
| `Weather.ForecastCmd` | weather.py:153-175 | empty arguments give the no-city reply and no request; a non-200 status or an empty list gives the fetch error; otherwise a forecast reply under the city as typed, with ceil(n/8) days, the k-th shaped from list entry 8k |
| `SteamDiscounts.Shape` | discount.py:39-45 | a shaped row keeps the game's positive discount percent |
| `SteamDiscounts.ShapeDefaults` | discount.py:40-44 | absent name, id and prices read as "Unknown", 0, 0 and 0; a present name, id, original price and final price are kept |
| `SteamDiscounts.OnSaleRows` | discount.py:37-45 | the kept rows are no more than the games, and every kept row has a positive discount |
| `SteamDiscounts.OnSaleRowsSnoc` | discount.py:37-45 | a game added at the end adds its row at the end exactly when it is on sale |
| `SteamDiscounts.OnSaleRowsMembers` | discount.py:37-38 | a row is in the result iff some game with `discount_percent > 0` shapes to it |
| `SteamDiscounts.OnSaleRowsInOrder` | discount.py:36-46 | the row of the i-th game on sale sits at its own index, and a later game's row sits strictly later |
| `SteamDiscounts.GetPopularDiscounts` | discount.py:27-49 | `None` iff the call raised, the status was not 200, `featured_win` is present but not a list, an element is not an object, or a field needed for a game could not be compared or divided; otherwise the rows of the games on sale, in order; a missing `featured_win` gives an empty list |
| `SteamDiscounts.NatText` | discount.py:63-64 | a natural number is rendered as a non-empty string of decimal digits that starts with `0` only for zero |
| `SteamDiscounts.IntText` | discount.py:63-64 | an integer is rendered as a non-empty text that starts with a minus sign iff the integer is negative |
| `SteamDiscounts.NatTextRoundTrip` | discount.py:63-64 | reading the rendered digits back gives the number |
| `SteamDiscounts.Hryvnias` | discount.py:61-62 | a price is rendered as a minus sign iff it is negative, the whole hryvnias in decimal digits with a leading `0` only below one hryvnia, a point and two digits |
| `SteamDiscounts.HryvniasReadsBack` | discount.py:61-62 | for every price, the sign times (hryvnias times 100 plus the two digits) reads back as the kopecks |
| `SteamDiscounts.JoinLinesSplit` | discount.py:59 | the joined listing is the blocks before any inner position, one newline, and the blocks after |
| `SteamDiscounts.JoinLinesAt` | discount.py:59-66 | every block stands in the listing between the earlier blocks and the later ones, separated from each by one newline |
| `SteamDiscounts.Blocks` | discount.py:59-66 | one text block per row, in order |
| `SteamDiscounts.ListIsNotNoDiscounts` | discount.py:56-67 | a listing reply is never the "no discounts" text |
| `SteamDiscounts.DiscountsReplies` | discount.py:51-68 | "checking" is sent first; then "no discounts" iff the result is `None` or empty, otherwise the header followed by the newline-joined blocks |
| `AutoBold.Bolded` | bold.py:40 | the edit is the text between two `**` markers, four characters longer |
| `AutoBold.RepliesDiffer` | bold.py:12-13 | the "enabled" and "disabled" replies are different texts |
| `AutoBold.AutoBoldModule.constructor` | bold.py:16-24 | the flag starts on |
| `AutoBold.AutoBoldModule.Toggle` | bold.py:26-33 | the flag is negated; the reply is the "enabled" text iff the new value is on |
| `AutoBold.AutoBoldModule.Watch` | bold.py:35-41 | an edit is made iff the flag is on, the text is non-empty and there are no entities; the edit is `**text**` |
| `AutoBold.ToggleTwice` | bold.py:29-33 | toggling twice restores the flag, and the two replies are the two different texts |
| `AutoBold.FirstMessageIsBold` | bold.py:16-41 | a fresh module bolds a plain non-empty message |

## Left out

- HTTP access (`requests.get`, the `aiohttp` session) is an input: a status and a decoded body, or an exception for the Steam call. The request URLs and the API key are not modelled.
- Telegram and host primitives (`utils.answer`, `message.edit`, config and db storage, `client_ready`, the API token) are not modelled. The model records only the reply or edit text chosen.
- `api_request`, its cache write path and the polling task (`alert_task`, `alert_msg_id`, `alert_chat_id`) with its start and stop commands are not modelled. `AlertsUaModule.Put` is a plain overwrite that stands in for the write path.
- `time.time()` is replaced by an integer `now` argument. Timestamps are whole seconds, so fractional-second ages are not modelled.
- Floating point: temperature and wind speed are copied as `real`, and no arithmetic is done on them. Visibility stays in metres; the `/ 1000` division is left out. Prices stay in kopecks. `Hryvnias` renders `k / 100` with two decimals exactly, which matches `:.2f` only while the price fits a double's exact range.
- `datetime.fromtimestamp(...).strftime("%Y-%m-%d")` is left out: a forecast day keeps the entry's raw `dt`.
- The text of the weather and forecast replies is not rendered. The model records which reply is sent and the report or days it is built from.
- Weather.Lower: only the characters whose lower case is an ASCII letter are lowered (A-Z and U+212A). Every other character is kept as it is. This gives the same table lookup as Python's full Unicode `str.lower`, because every key is ASCII. It is not the full lowered string.
- Weather.GetWeather: malformed OpenWeatherMap bodies (a missing key, an empty `weather` list) raise uncaught exceptions in the source. The model's body types always carry those fields, so that path is not modelled.
- Weather.GetForecast: a 200 body without `list`, or a list entry without `dt`, a `weather` entry or `main`, raises an uncaught exception in the source (weather.py:113-119). The model's body types always carry those fields, so that path is not modelled.
- Weather.ForecastCmd: for the same reason it always replies to a 200 body, while the source sends no reply when `get_forecast` raises on a malformed body.
- Weather.WeatherCmd: an exception raised by `requests.get` (weather.py:83 and :108) is not caught by either weather command, so the source sends no reply. The model's responses always carry a status, so transport errors on the weather calls are not modelled.
- AutoBold.AutoBoldModule.Watch: the host's filter at bold.py:35 (`out=True, no_commands=True`) is not modelled. The watcher is called only for outgoing messages that are not commands; the model has no direction or command field, so `Watch` describes only the messages that pass that filter.
- SteamDiscounts.GetPopularDiscounts: a null `name` or `id` is not modelled. The source would pass Python's `None` through and print it. A body that is not a JSON object, a `featured_win` that is a string or an object (iterated by its characters or keys), and boolean field values are also not modelled.
- music.py and ytdowload.py are not part of this model. They hold async event waiting, flood-wait sleeps, message forwarding, yt_dlp downloads, ffmpeg conversion and file removal.

=== FILE: alerts_ua.dfy ===
/**
 * The state-holding part of the air-raid alert plug-in: the fixed table of
 * 27 oblasts with their 1-based UIDs, and the per-endpoint response cache
 * whose stale entries are dropped lazily, at lookup time.
 */
module AlertsUa {
  import opened Wrappers

  /** The regions of Ukraine, in the order that gives them their UIDs. */
  const Oblasts: seq<string> := [
    "Автономна Республіка Крим", "Волинська область", "Вінницька область", "Дніпропетровська область",
    "Донецька область", "Житомирська область", "Закарпатська область", "Запорізька область",
    "Івано-Франківська область", "м. Київ", "Київська область", "Кіровоградська область",
    "Луганська область", "Львівська область", "Миколаївська область", "Одеська область",
    "Полтавська область", "Рівненська область", "м. Севастополь", "Сумська область",
    "Тернопільська область", "Харківська область", "Херсонська область", "Хмельницька область",
    "Черкаська область", "Чернівецька область", "Чернігівська область"
  ]

  /** How long, in seconds, a cached response stays fresh. */
  const CacheTtl: int := 300

  ghost predicate Distinct(names: seq<string>)
  {
    forall i, j :: 0 <= i < j < |names| ==> names[i] != names[j]
  }

  ghost predicate Injective(m: map<string, int>)
  {
    forall a, b :: a in m && b in m && a != b ==> m[a] != m[b]
  }

  lemma OblastsAreDistinct()
    ensures |Oblasts| == 27
    ensures Distinct(Oblasts)
  {
  }

  /**
   * `{name: i + 1 for i, name in enumerate(names)}`: names are inserted in
   * list order, so a repeated name would keep the number of its last
   * occurrence. Every number handed out points back at a position holding
   * that name.
   */
  function NumberFromOne(names: seq<string>): (m: map<string, int>)
    ensures m.Keys == set n | n in names
    ensures forall n :: n in m ==> 1 <= m[n] <= |names| && names[m[n] - 1] == n
  {
    if names == [] then map[]
    else NumberFromOne(names[..|names| - 1])[names[|names| - 1] := |names|]
  }

  /** A name's number is that of its last occurrence: no later position holds it. */
  lemma {:induction false} NumberFromOneIsLast(names: seq<string>, n: string, j: int)
    requires n in NumberFromOne(names)
    requires NumberFromOne(names)[n] - 1 < j < |names|
    ensures names[j] != n
    decreases |names|
  {
    var init := names[..|names| - 1];
    if n != names[|names| - 1] && j < |names| - 1 {
      assert NumberFromOne(names)[n] == NumberFromOne(init)[n];
      NumberFromOneIsLast(init, n, j);
      assert init[j] == names[j];
    }
  }

  /** The oblast-name to UID table. */
  function UidMap(): map<string, int>
  {
    NumberFromOne(Oblasts)
  }

  /** With no repeated name, the i-th name gets exactly i + 1. */
  lemma NumberFromOneAt(names: seq<string>, i: int)
    requires Distinct(names)
    requires 0 <= i < |names|
    ensures names[i] in NumberFromOne(names)
    ensures NumberFromOne(names)[names[i]] == i + 1
  {
  }

  /** A sequence without repeats has as many distinct elements as positions. */
  lemma {:induction false} DistinctCount(names: seq<string>)
    requires Distinct(names)
    ensures |set n | n in names| == |names|
  {
    if names != [] {
      var init := names[..|names| - 1];
      var last := names[|names| - 1];
      DistinctCount(init);
      assert (set n | n in names) == (set n | n in init) + {last};
      assert last !in (set n | n in init);
    }
  }

  /** `uid_map[oblasts[i]] == i + 1` for every position. */
  lemma UidMapNumbersInOrder()
    ensures forall i :: 0 <= i < |Oblasts| ==> Oblasts[i] in UidMap() && UidMap()[Oblasts[i]] == i + 1
  {
    OblastsAreDistinct();
    forall i | 0 <= i < |Oblasts|
      ensures Oblasts[i] in UidMap() && UidMap()[Oblasts[i]] == i + 1
    {
      NumberFromOneAt(Oblasts, i);
    }
  }

  /** Numbering a list without repeats is a bijection onto 1..|names|. */
  lemma NumberFromOneIsBijection(names: seq<string>)
    requires Distinct(names)
    ensures |NumberFromOne(names)| == |names|
    ensures forall k :: k in NumberFromOne(names).Values <==> 1 <= k <= |names|
    ensures Injective(NumberFromOne(names))
  {
    var m := NumberFromOne(names);
    DistinctCount(names);
    assert |m| == |m.Keys|;
    forall k | 1 <= k <= |names|
      ensures k in m.Values
    {
      NumberFromOneAt(names, k - 1);
      assert m[names[k - 1]] == k;
    }
  }

  /** `uid_map` is a bijection between the 27 names and the UIDs 1..27. */
  lemma UidMapIsBijection()
    ensures |UidMap()| == 27
    ensures UidMap().Keys == set n | n in Oblasts
    ensures forall k :: k in UidMap().Values <==> 1 <= k <= 27
    ensures Injective(UidMap())
  {
    OblastsAreDistinct();
    NumberFromOneIsBijection(Oblasts);
  }

  /** A cached response and the time, in whole seconds, it was fetched. */
  datatype CacheEntry<D> = CacheEntry(data: D, timestamp: int)

  /**
   * What `get_cached` hands back, and what the cache holds afterwards, for a
   * lookup of `endpoint` at time `now`.
   */
  function Lookup<D>(cache: map<string, CacheEntry<D>>, endpoint: string, now: int, ttl: int)
    : (r: (Option<D>, map<string, CacheEntry<D>>))
    ensures r.0.Some? <==> endpoint in cache && now - cache[endpoint].timestamp < ttl
    ensures r.0.Some? ==> r.0.value == cache[endpoint].data && r.1 == cache
    ensures r.0.None? ==> r.1 == cache - {endpoint}
    ensures forall k :: k != endpoint ==> (k in r.1 <==> k in cache)
    ensures forall k :: k != endpoint && k in cache ==> r.1[k] == cache[k]
  {
    if endpoint in cache && now - cache[endpoint].timestamp < ttl then (Some(cache[endpoint].data), cache)
    else (None, cache - {endpoint})
  }

  /** Looking up a key that is not cached returns nothing and changes nothing. */
  lemma LookupAbsent<D>(cache: map<string, CacheEntry<D>>, endpoint: string, now: int, ttl: int)
    requires endpoint !in cache
    ensures Lookup(cache, endpoint, now, ttl) == (None, cache)
  {
    assert cache - {endpoint} == cache;
  }

  /** A stale entry is removed; a second lookup then finds nothing and changes nothing. */
  lemma EvictionIsIdempotent<D>(cache: map<string, CacheEntry<D>>, endpoint: string, now: int, later: int, ttl: int)
    requires endpoint in cache && now - cache[endpoint].timestamp >= ttl
    ensures Lookup(cache, endpoint, now, ttl).0 == None
    ensures endpoint !in Lookup(cache, endpoint, now, ttl).1
    ensures var after := Lookup(cache, endpoint, now, ttl).1;
            Lookup(after, endpoint, later, ttl) == (None, after)
  {
    var after := Lookup(cache, endpoint, now, ttl).1;
    LookupAbsent(after, endpoint, later, ttl);
  }

  /** A value stored at `t0` is returned at `t1` exactly while `t1 - t0 < ttl`. */
  lemma StoredValueLivesForTtl<D>(cache: map<string, CacheEntry<D>>, endpoint: string, v: D, t0: int, t1: int, ttl: int)
    ensures Lookup(cache[endpoint := CacheEntry(v, t0)], endpoint, t1, ttl).0
            == if t1 - t0 < ttl then Some(v) else None
  {
  }

  /** A lookup that misses at some time misses at every later time too. */
  lemma MissPersists<D>(cache: map<string, CacheEntry<D>>, endpoint: string, now: int, later: int, ttl: int)
    requires now <= later
    requires Lookup(cache, endpoint, now, ttl).0.None?
    ensures Lookup(cache, endpoint, later, ttl).0.None?
  {
  }

  /** The alert plug-in's own state: the oblast table and the response cache. */
  class AlertsUaModule<D> {
    const oblasts: seq<string>
    const uidMap: map<string, int>
    const cacheTtl: int
    var cache: map<string, CacheEntry<D>>

    constructor ()
      ensures oblasts == Oblasts && uidMap == UidMap()
      ensures cache == map[] && cacheTtl == CacheTtl
    {
      oblasts := Oblasts;
      uidMap := UidMap();
      cacheTtl := CacheTtl;
      cache := map[];
    }

    /** Returns the cached data for `endpoint` while it is fresh; drops it once stale. */
    method GetCached(endpoint: string, now: int) returns (r: Option<D>)
      modifies this
      ensures (r, cache) == Lookup(old(cache), endpoint, now, cacheTtl)
    {
      if endpoint in cache {
        var cached := cache[endpoint];
        if now - cached.timestamp < cacheTtl {
          return Some(cached.data);
        } else {
          cache := cache - {endpoint};
        }
      } else {
        assert cache - {endpoint} == cache;
      }
      return None;
    }

    /** Stores `data` as fetched at `now`, replacing any earlier entry. */
    method Put(endpoint: string, data: D, now: int)
      modifies this
      ensures cache == old(cache)[endpoint := CacheEntry(data, now)]
    {
      cache := cache[endpoint := CacheEntry(data, now)];
    }
  }

  /** A fresh hit, a stale lookup that evicts, and a repeat lookup that finds nothing. */
  method CacheLifecycle<D>(v: D)
  {
    var m := new AlertsUaModule<D>();
    m.Put("/alerts/active.json", v, 1000);
    var hit := m.GetCached("/alerts/active.json", 1299);
    assert hit == Some(v);
    var stale := m.GetCached("/alerts/active.json", 1300);
    assert stale == None && m.cache == map[];
    var again := m.GetCached("/alerts/active.json", 1400);
    assert again == None && m.cache == map[];
  }
}

=== FILE: bold.dfy ===
/**
 * The AutoBold plug-in: a config flag that a command flips, and a watcher
 * on outgoing messages that wraps plain text in Markdown bold markers.
 */
module AutoBold {
  import opened Wrappers

  const EnabledText: string := "<b>Автоматичний жирний шрифт увімкнено</b>"
  const DisabledText: string := "<b>Автоматичний жирний шрифт вимкнено</b>"

  /** A formatting entity of a message (bold, link, mention, ...), by kind. */
  datatype Entity = Entity(kind: string, offset: nat, length: nat)

  /** An outgoing message as the watcher sees it; `entities` is `None` when absent. */
  datatype Message = Message(rawText: string, entities: Option<seq<Entity>>)

  /** `f"**{text}**"`. */
  function Bolded(text: string): (r: string)
    ensures |r| == |text| + 4
    ensures r[..2] == "**" && r[|r| - 2..] == "**"
    ensures r[2..|r| - 2] == text
  {
    "**" + text + "**"
  }

  /** `not message.entities`: absent or empty. */
  predicate HasNoEntities(m: Message)
  {
    m.entities == None || m.entities == Some([])
  }

  /** The reply text is never the same for the two states. */
  lemma RepliesDiffer()
    ensures EnabledText != DisabledText
  {
    assert |EnabledText| != |DisabledText|;
  }

  class AutoBoldModule {
    /** `config["enabled"]`. */
    var enabled: bool

    constructor ()
      ensures enabled
    {
      enabled := true;
    }

    /** `autoboldtoggle`: flips the flag and answers with its new state. */
    method Toggle() returns (reply: string)
      modifies this
      ensures enabled == !old(enabled)
      ensures reply == (if enabled then EnabledText else DisabledText)
    {
      enabled := !enabled;
      if enabled {
        reply := EnabledText;
      } else {
        reply := DisabledText;
      }
    }

    /**
     * `watcher`: the text the message is edited to, or `None` for no edit.
     * It edits only when the flag is on, the text is non-empty and the
     * message carries no entities.
     */
    method Watch(message: Message) returns (edit: Option<string>)
      ensures edit.Some? <==> enabled && message.rawText != "" && HasNoEntities(message)
      ensures edit.Some? ==> edit.value == Bolded(message.rawText)
    {
      if !enabled {
        return None;
      }
      if message.rawText != "" && HasNoEntities(message) {
        return Some(Bolded(message.rawText));
      }
      return None;
    }
  }

  /** Toggling twice gives back the starting state, with both replies seen once. */
  method ToggleTwice(m: AutoBoldModule) returns (first: string, second: string)
    modifies m
    ensures m.enabled == old(m.enabled)
    ensures {first, second} == {EnabledText, DisabledText}
  {
    first := m.Toggle();
    second := m.Toggle();
  }

  /** The module starts enabled, so a first plain message is made bold. */
  method FirstMessageIsBold(text: string) returns (edit: Option<string>)
    requires text != ""
    ensures edit == Some(Bolded(text))
  {
    var m := new AutoBoldModule();
    edit := m.Watch(Message(text, None));
  }
}

=== FILE: discount.dfy ===
/**
 * The Steam discount plug-in: the filter over the `featured_win` games of
 * the store's featured list, and the reply of the `discounts` command.
 * Prices stay in kopecks, as the store sends them.
 */
module SteamDiscounts {
  import opened Wrappers

  const Checking: string := "🔄 <b>Перевіряю знижки...</b>"
  const NoDiscounts: string := "ℹ️ <b>Немає ігор зі знижками наразі.</b>"
  const ListHeader: string := "🛒 <b>Популярні ігри зі знижками (Україна):</b>\n\n"

  /**
   * A numeric JSON field: absent, a number, or something else (null, a
   * string) on which Python's comparison or division raises `TypeError`.
   */
  datatype Num = Missing | Number(n: int) | NotANumber

  /**
   * One element of `featured_win`: a game object with the fields that are
   * read, or any other JSON value, on which `game.get` raises `AttributeError`.
   */
  datatype Game =
    | Game(name: Option<string>, discountPercent: Num, originalPrice: Num, finalPrice: Num, id: Option<int>)
    | NotAnObject

  /**
   * The `featured_win` value: absent, a list, or something that cannot be
   * iterated as games (null, a number), on which the loop raises `TypeError`.
   */
  datatype FeaturedWin = Absent | List(games: seq<Game>) | NotAList

  /** The decoded body. */
  datatype Featured = Featured(featuredWin: FeaturedWin)

  /** The HTTP call: an exception, or a status with its decoded body. */
  datatype FetchResult = Raised | Answered(status: int, body: Featured)

  /** One shaped discount row. */
  datatype Discount = Discount(
    name: string, originalPrice: int, finalPrice: int, discountPercent: int, appid: int)

  /** `data.get("featured_win", [])`, for a value that can be iterated. */
  function GamesOf(body: Featured): seq<Game>
    requires !body.featuredWin.NotAList?
  {
    if body.featuredWin.List? then body.featuredWin.games else []
  }

  /** `game.get(key, 0)` for a numeric field that holds a number or is absent. */
  function OrZero(v: Num): int
    requires !v.NotANumber?
  {
    if v.Number? then v.n else 0
  }

  /** `game.get("discount_percent", 0) > 0`. */
  predicate OnSale(g: Game)
  {
    g.Game? && g.discountPercent.Number? && g.discountPercent.n > 0
  }

  /**
   * Shaping this element raises: it is not an object, its percent is not a
   * number, or it is on sale with a price that is not.
   */
  predicate Raises(g: Game)
  {
    || g.NotAnObject?
    || g.discountPercent.NotANumber?
    || (OnSale(g) && (g.originalPrice.NotANumber? || g.finalPrice.NotANumber?))
  }

  predicate NoneRaises(games: seq<Game>)
  {
    forall i :: 0 <= i < |games| ==> !Raises(games[i])
  }

  /** The row for a game on sale, with the defaults for absent fields. */
  function Shape(g: Game): (d: Discount)
    requires OnSale(g) && !Raises(g)
    ensures d.discountPercent == g.discountPercent.n > 0
  {
    Discount(
      if g.name.Some? then g.name.value else "Unknown",
      OrZero(g.originalPrice), OrZero(g.finalPrice), g.discountPercent.n,
      if g.id.Some? then g.id.value else 0)
  }

  /** Absent fields read as "Unknown", 0, 0 and 0. */
  lemma ShapeDefaults(g: Game)
    requires OnSale(g) && !Raises(g)
    ensures g.name == None ==> Shape(g).name == "Unknown"
    ensures g.id == None ==> Shape(g).appid == 0
    ensures g.originalPrice == Missing ==> Shape(g).originalPrice == 0
    ensures g.finalPrice == Missing ==> Shape(g).finalPrice == 0
    ensures g.name.Some? ==> Shape(g).name == g.name.value
    ensures g.id.Some? ==> Shape(g).appid == g.id.value
    ensures g.originalPrice.Number? ==> Shape(g).originalPrice == g.originalPrice.n
    ensures g.finalPrice.Number? ==> Shape(g).finalPrice == g.finalPrice.n
  {
  }

  /** The rows of the games on sale, in input order. */
  function OnSaleRows(games: seq<Game>): (rows: seq<Discount>)
    requires NoneRaises(games)
    ensures |rows| <= |games|
    ensures forall k :: 0 <= k < |rows| ==> rows[k].discountPercent > 0
  {
    if games == [] then []
    else
      var rest := OnSaleRows(games[1..]);
      if OnSale(games[0]) then [Shape(games[0])] + rest else rest
  }

  /** Adding a game at the end adds its row, if it is on sale, at the end. */
  lemma {:induction false} OnSaleRowsSnoc(games: seq<Game>, g: Game)
    requires NoneRaises(games) && !Raises(g)
    ensures NoneRaises(games + [g])
    ensures OnSaleRows(games + [g]) == OnSaleRows(games) + (if OnSale(g) then [Shape(g)] else [])
    decreases |games|
  {
    assert NoneRaises(games + [g]) by {
      forall i | 0 <= i < |games| + 1 ensures !Raises((games + [g])[i]) {
        if i < |games| { assert (games + [g])[i] == games[i]; }
      }
    }
    if games != [] {
      assert (games + [g])[1..] == games[1..] + [g];
      assert (games + [g])[0] == games[0];
      OnSaleRowsSnoc(games[1..], g);
    }
  }

  /** A row is in the result exactly when some game on sale shapes to it. */
  lemma {:induction false} OnSaleRowsMembers(games: seq<Game>, row: Discount)
    requires NoneRaises(games)
    ensures row in OnSaleRows(games) <==>
            exists i :: 0 <= i < |games| && OnSale(games[i]) && Shape(games[i]) == row
    decreases |games|
  {
    if games != [] {
      OnSaleRowsMembers(games[1..], row);
      if row in OnSaleRows(games[1..]) {
        var i :| 0 <= i < |games[1..]| && OnSale(games[1..][i]) && Shape(games[1..][i]) == row;
        assert games[i + 1] == games[1..][i];
      }
      if exists i :: 0 <= i < |games| && OnSale(games[i]) && Shape(games[i]) == row {
        var i :| 0 <= i < |games| && OnSale(games[i]) && Shape(games[i]) == row;
        if i > 0 {
          assert games[1..][i - 1] == games[i];
        }
      }
    }
  }

  /** Where the row of the `i`-th game lands: the number of rows before it. */
  function RowIndex(games: seq<Game>, i: int): nat
    requires NoneRaises(games) && 0 <= i <= |games|
  {
    assert NoneRaises(games[..i]) by {
      forall j | 0 <= j < i ensures !Raises(games[..i][j]) { assert games[..i][j] == games[j]; }
    }
    |OnSaleRows(games[..i])|
  }

  /**
   * Order is kept: the row of the `i`-th game on sale is at `RowIndex(games, i)`,
   * and a later game on sale lands strictly later.
   */
  lemma {:induction false} OnSaleRowsInOrder(games: seq<Game>, i: int, j: int)
    requires NoneRaises(games)
    requires 0 <= i < j <= |games|
    requires OnSale(games[i])
    ensures RowIndex(games, i) < RowIndex(games, j) <= |OnSaleRows(games)|
    ensures OnSaleRows(games)[RowIndex(games, i)] == Shape(games[i])
    decreases |games| - i
  {
    PrefixRows(games, i + 1);
    assert games[..i + 1] == games[..i] + [games[i]];
    OnSaleRowsSnoc(games[..i], games[i]);
    RowIndexGrows(games, i + 1, j);
    RowIndexGrows(games, j, |games|);
    assert games[..|games|] == games;
  }

  /** The rows of a prefix are a prefix of the rows. */
  lemma {:induction false} PrefixRows(games: seq<Game>, n: int)
    requires NoneRaises(games) && 0 <= n <= |games|
    ensures NoneRaises(games[..n])
    ensures OnSaleRows(games[..n]) <= OnSaleRows(games)
    decreases |games| - n
  {
    assert NoneRaises(games[..n]) by {
      forall j | 0 <= j < n ensures !Raises(games[..n][j]) { assert games[..n][j] == games[j]; }
    }
    if n == |games| {
      assert games[..n] == games;
    } else {
      PrefixRows(games, n + 1);
      assert games[..n + 1] == games[..n] + [games[n]];
      OnSaleRowsSnoc(games[..n], games[n]);
    }
  }

  /** `RowIndex` never decreases along the input. */
  lemma {:induction false} RowIndexGrows(games: seq<Game>, m: int, n: int)
    requires NoneRaises(games) && 0 <= m <= n <= |games|
    ensures RowIndex(games, m) <= RowIndex(games, n)
    decreases n - m
  {
    if m < n {
      RowIndexGrows(games, m, n - 1);
      assert games[..n] == games[..n - 1] + [games[n - 1]];
      OnSaleRowsSnoc(games[..n - 1], games[n - 1]);
    }
  }

  /**
   * `get_popular_discounts`: `None` on an exception or a status other than
   * 200; otherwise the rows of the games on sale, in input order.
   */
  method GetPopularDiscounts(fetched: FetchResult) returns (r: Option<seq<Discount>>)
    ensures r.Some? <==>
      && fetched.Answered? && fetched.status == 200
      && !fetched.body.featuredWin.NotAList?
      && NoneRaises(GamesOf(fetched.body))
    ensures r.Some? ==> r.value == OnSaleRows(GamesOf(fetched.body))
    ensures fetched.Answered? && fetched.status == 200 && fetched.body.featuredWin == Absent ==> r == Some([])
  {
    if fetched.Raised? || fetched.status != 200 || fetched.body.featuredWin.NotAList? {
      return None;
    }
    var games := GamesOf(fetched.body);
    var discounts: seq<Discount> := [];
    for i := 0 to |games|
      invariant NoneRaises(games[..i])
      invariant discounts == OnSaleRows(games[..i])
    {
      var game := games[i];
      if game.NotAnObject? || game.discountPercent.NotANumber? {
        return None;
      }
      if OrZero(game.discountPercent) > 0 {
        if game.originalPrice.NotANumber? || game.finalPrice.NotANumber? {
          return None;
        }
        discounts := discounts + [Shape(game)];
      }
      assert games[..i + 1] == games[..i] + [game];
      OnSaleRowsSnoc(games[..i], game);
    }
    assert games[..|games|] == games;
    return Some(discounts);
  }

  /** Decimal digits of a natural number, without leading zeros. */
  function NatText(n: nat): (s: string)
    ensures |s| > 0
    ensures forall i :: 0 <= i < |s| ==> '0' <= s[i] <= '9'
    ensures s[0] == '0' ==> n == 0
    decreases n
  {
    if n < 10 then [(n + '0' as int) as char] else NatText(n / 10) + NatText(n % 10)
  }

  /** Reads back a string of decimal digits. */
  function ParseNat(s: string): nat
    requires forall i :: 0 <= i < |s| ==> '0' <= s[i] <= '9'
  {
    if s == [] then 0 else 10 * ParseNat(s[..|s| - 1]) + (s[|s| - 1] as int - '0' as int)
  }

  lemma {:induction false} NatTextRoundTrip(n: nat)
    ensures ParseNat(NatText(n)) == n
    decreases n
  {
    if n >= 10 {
      var hi, lo := NatText(n / 10), NatText(n % 10);
      assert NatText(n) == hi + lo;
      assert (hi + lo)[..|hi + lo| - 1] == hi;
      NatTextRoundTrip(n / 10);
    }
  }

  /** `str(n)` for an integer. */
  function IntText(n: int): (s: string)
    ensures |s| > 0 && (s[0] == '-' <==> n < 0)
  {
    if n < 0 then "-" + NatText(-n) else NatText(n)
  }

  /** The decimal digit for `d < 10`. */
  function Digit(d: nat): char
    requires d < 10
  {
    (d + '0' as int) as char
  }

  /**
   * `f"{k / 100:.2f}"` for a price of `k` kopecks: a sign for a negative
   * price, the whole hryvnias, a point and the two digits of the kopecks.
   */
  function Hryvnias(k: int): (s: string)
    ensures |s| >= 4 && s[|s| - 3] == '.'
    ensures '0' <= s[|s| - 2] <= '9' && '0' <= s[|s| - 1] <= '9'
    ensures s[0] == '-' <==> k < 0
    ensures var w := WholePart(s);
            |w| > 0 && (forall i :: 0 <= i < |w| ==> '0' <= w[i] <= '9')
            && (w[0] == '0' ==> -100 < k < 100)
  {
    var a := if k < 0 then -k else k;
    var body := NatText(a / 100) + "." + [Digit(a % 100 / 10), Digit(a % 10)];
    if k < 0 then "-" + body else body
  }

  /** The whole hryvnias of a rendered price: between the sign, if any, and the point. */
  function WholePart(s: string): string
    requires |s| >= 4
  {
    if s[0] == '-' then s[1..|s| - 3] else s[..|s| - 3]
  }

  /**
   * A rendered price reads back as the same number of kopecks: the sign,
   * then the whole part times 100 plus the two digits after the point.
   */
  lemma HryvniasReadsBack(k: int)
    ensures var s := Hryvnias(k);
            var w := WholePart(s);
            (forall i :: 0 <= i < |w| ==> '0' <= w[i] <= '9')
            && (if s[0] == '-' then -1 else 1) * (ParseNat(w) * 100 + ParseNat(s[|s| - 2..])) == k
  {
    var s := Hryvnias(k);
    var a := if k < 0 then -k else k;
    assert WholePart(s) == NatText(a / 100);
    NatTextRoundTrip(a / 100);
    assert s[|s| - 2..] == [Digit(a % 100 / 10), Digit(a % 10)];
    KopecksReadBack(a);
    assert a / 100 * 100 + a % 100 == a;
  }

  /** The two digits after the point read back as the kopecks below one hryvnia. */
  lemma KopecksReadBack(a: nat)
    ensures ParseNat([Digit(a % 100 / 10), Digit(a % 10)]) == a % 100
  {
    var cents := [Digit(a % 100 / 10), Digit(a % 10)];
    assert cents[..1] == [Digit(a % 100 / 10)];
    assert cents[..1][..0] == [];
    assert ParseNat(cents[..1]) == a % 100 / 10;
    assert ParseNat(cents) == 10 * (a % 100 / 10) + a % 10;
  }

  /** The text block of one row. */
  function Block(d: Discount): string
  {
    "• " + d.name + "\n"
    + "   💰 Без знижки: " + Hryvnias(d.originalPrice) + " грн\n"
    + "   💸 Зі знижкою: " + Hryvnias(d.finalPrice) + " грн\n"
    + "   📉 Знижка: " + IntText(d.discountPercent) + "%\n"
    + "   🔗 https://store.steampowered.com/app/" + IntText(d.appid)
  }

  /** `"\n".join(parts)`. */
  function JoinLines(parts: seq<string>): string
  {
    if parts == [] then ""
    else if |parts| == 1 then parts[0]
    else parts[0] + "\n" + JoinLines(parts[1..])
  }

  /**
   * Joining splits at any inner position: the parts before, one newline,
   * the parts after.
   */
  lemma {:induction false} JoinLinesSplit(parts: seq<string>, k: int)
    requires 0 < k < |parts|
    ensures JoinLines(parts) == JoinLines(parts[..k]) + "\n" + JoinLines(parts[k..])
    decreases k
  {
    if k > 1 {
      var rest := parts[1..];
      JoinLinesSplit(rest, k - 1);
      assert rest[..k - 1] == parts[1..k];
      assert rest[k - 1..] == parts[k..];
      assert parts[..k][1..] == parts[1..k];
    } else {
      assert parts[..1] == [parts[0]];
    }
  }

  /** Each part stands in the joined text between its neighbours' newlines. */
  lemma {:induction false} JoinLinesAt(parts: seq<string>, k: int)
    requires 0 <= k < |parts|
    ensures JoinLines(parts) ==
              (if k == 0 then "" else JoinLines(parts[..k]) + "\n")
              + parts[k]
              + (if k == |parts| - 1 then "" else "\n" + JoinLines(parts[k + 1..]))
  {
    if k > 0 {
      JoinLinesSplit(parts, k);
    }
    var tail := parts[k..];
    if k < |parts| - 1 {
      assert tail[1..] == parts[k + 1..];
    }
    if k == 0 {
      assert parts[k..] == parts;
    }
  }

  function Blocks(rows: seq<Discount>): (bs: seq<string>)
    ensures |bs| == |rows|
    ensures forall k :: 0 <= k < |rows| ==> bs[k] == Block(rows[k])
  {
    seq(|rows|, k requires 0 <= k < |rows| => Block(rows[k]))
  }

  /** A listing reply never reads as the "no discounts" reply. */
  lemma ListIsNotNoDiscounts(listing: string)
    ensures ListHeader + listing != NoDiscounts
  {
    assert |NoDiscounts| < |ListHeader|;
  }

  /**
   * `discounts`: "checking" first; then, for `None` and for an empty list
   * alike, the "no discounts" text; otherwise the header and the blocks
   * joined by newlines.
   */
  function DiscountsReplies(result: Option<seq<Discount>>): (replies: seq<string>)
    ensures |replies| == 2 && replies[0] == Checking
    ensures replies[1] == NoDiscounts <==> result == None || result == Some([])
    ensures result.Some? && result.value != [] ==>
              replies[1] == ListHeader + JoinLines(Blocks(result.value))
  {
    if result == None || result == Some([]) then [Checking, NoDiscounts]
    else
      var listing := JoinLines(Blocks(result.value));
      ListIsNotNoDiscounts(listing);
      [Checking, ListHeader + listing]
  }
}

=== FILE: weather.dfy ===
/**
 * The shaping rules of the weather plug-in: translating OpenWeatherMap's
 * English descriptions, choosing unit labels from the `UNITS` setting,
 * sampling the 3-hourly forecast once a day, and choosing the reply of the
 * two commands. The HTTP call is an input: a status code and a decoded body.
 */
module Weather {
  import opened Wrappers

  const NoCity: string := "❗ Будь ласка, вкажіть назву міста."
  const FetchError: string :=
    "❗ Не вдалося отримати дані про погоду. Перевірте назву міста та спробуйте ще раз."

  /*
   * The description table, kept in the groups OpenWeatherMap uses so that
   * each piece stays small for the verifier; the keys of the groups are
   * pairwise different, so their union is the one table.
   */
  /** Sky and clouds. */
  const CloudTranslations: map<string, string> := map[
    "clear sky" := "ясно",
    "few clouds" := "невелика хмарність",
    "scattered clouds" := "розсіяні хмари",
    "broken clouds" := "хмарно з проясненнями",
    "overcast clouds" := "похмуро"
  ]

  /** Rain. */
  const RainTranslations: map<string, string> := map[
    "light rain" := "легкий дощ",
    "moderate rain" := "помірний дощ",
    "heavy intensity rain" := "сильний дощ",
    "very heavy rain" := "дуже сильний дощ",
    "extreme rain" := "екстремальний дощ",
    "freezing rain" := "крижаний дощ",
    "light intensity shower rain" := "легкий зливовий дощ",
    "shower rain" := "зливовий дощ",
    "heavy intensity shower rain" := "сильний зливовий дощ",
    "ragged shower rain" := "нерівномірний зливовий дощ"
  ]

  /** Snow and sleet. */
  const SnowTranslations: map<string, string> := map[
    "light snow" := "легкий сніг",
    "snow" := "сніг",
    "heavy snow" := "сильний сніг",
    "sleet" := "мокрий сніг",
    "light shower sleet" := "легкий мокрий сніг",
    "shower sleet" := "мокрий сніг з дощем",
    "light rain and snow" := "легкий дощ зі снігом",
    "rain and snow" := "дощ зі снігом",
    "light shower snow" := "легкий снігопад",
    "shower snow" := "снігопад",
    "heavy shower snow" := "сильний снігопад"
  ]

  /** Mist, smoke, dust and wind. */
  const AtmosphereTranslations: map<string, string> := map[
    "mist" := "туман",
    "smoke" := "дим",
    "haze" := "серпанок",
    "sand/dust whirls" := "піщані/пилові вихори",
    "fog" := "туман",
    "sand" := "пісок",
    "dust" := "пил",
    "volcanic ash" := "вулканічний попіл",
    "squalls" := "шквали",
    "tornado" := "торнадо"
  ]

  /** Thunderstorms. */
  const ThunderstormTranslations: map<string, string> := map[
    "thunderstorm with light rain" := "гроза з легким дощем",
    "thunderstorm with rain" := "гроза з дощем",
    "thunderstorm with heavy rain" := "гроза з сильним дощем",
    "light thunderstorm" := "легка гроза",
    "thunderstorm" := "гроза",
    "heavy thunderstorm" := "сильна гроза",
    "ragged thunderstorm" := "нерівномірна гроза",
    "thunderstorm with light drizzle" := "гроза з легкою мрякою",
    "thunderstorm with drizzle" := "гроза з мрякою",
    "thunderstorm with heavy drizzle" := "гроза з сильною мрякою"
  ]

  /** Drizzle. */
  const DrizzleTranslations: map<string, string> := map[
    "light intensity drizzle" := "легка мряка",
    "drizzle" := "мряка",
    "heavy intensity drizzle" := "сильна мряка",
    "light intensity drizzle rain" := "легка мряка з дощем",
    "drizzle rain" := "мряка з дощем",
    "heavy intensity drizzle rain" := "сильна мряка з дощем",
    "shower rain and drizzle" := "зливова мряка з дощем",
    "heavy shower rain and drizzle" := "сильна зливова мряка з дощем",
    "shower drizzle" := "зливова мряка"
  ]

  /** Ukrainian texts for OpenWeatherMap's lower-case descriptions. */
  const Translations: map<string, string> :=
    CloudTranslations + RainTranslations + SnowTranslations
    + AtmosphereTranslations + ThunderstormTranslations + DrizzleTranslations


  predicate IsAsciiUpper(c: char)
  {
    'A' <= c <= 'Z'
  }

  /**
   * Lower-casing of one character, as far as it decides a lookup in
   * `Translations`, whose keys are all ASCII: the ASCII capitals and KELVIN
   * SIGN (U+212A) are the only characters whose lower case under Python's
   * `str.lower` is an ASCII letter on its own; every other character is kept.
   */
  function LowerChar(c: char): (r: char)
    ensures !IsAsciiUpper(r) && r != '\U{212A}'
    ensures IsAsciiUpper(c) ==> r as int == c as int + 32
    ensures c == '\U{212A}' ==> r == 'k'
    ensures !IsAsciiUpper(c) && c != '\U{212A}' ==> r == c
  {
    if IsAsciiUpper(c) then (c as int + 32) as char
    else if c == '\U{212A}' then 'k'
    else c
  }

  /** `s.lower()`, character by character. */
  function Lower(s: string): (r: string)
    ensures |r| == |s|
    ensures forall i :: 0 <= i < |s| ==> r[i] == LowerChar(s[i])
    ensures forall i :: 0 <= i < |r| ==> !IsAsciiUpper(r[i])
  {
    seq(|s|, i requires 0 <= i < |s| => LowerChar(s[i]))
  }

  lemma LowerIsIdempotent(s: string)
    ensures Lower(Lower(s)) == Lower(s)
  {
  }

  /**
   * `weather_translations.get(description.lower(), description)`: the
   * table's text when the lower-cased description is a key, otherwise the
   * description exactly as given.
   */
  function Translate(description: string): (r: string)
    ensures Lower(description) in Translations ==> r == Translations[Lower(description)]
    ensures Lower(description) !in Translations ==> r == description
    ensures r in Translations.Values || r == description
  {
    if Lower(description) in Translations then Translations[Lower(description)] else description
  }

  /** The lookup ignores case: two spellings that lower to a key translate alike. */
  lemma TranslateIgnoresCase(a: string, b: string)
    requires Lower(a) == Lower(b)
    requires Lower(a) in Translations
    ensures Translate(a) == Translate(b) == Translations[Lower(a)]
  {
  }

  /** A capitalised description still finds its table entry. */
  lemma TranslateCapitalised()
    ensures Translate("Shower Drizzle") == "зливова мряка"
  {
    assert Lower("Shower Drizzle") == "shower drizzle";
  }

  /** The temperature label: Celsius exactly when `UNITS` is "metric". */
  function TempUnit(units: string): (u: string)
    ensures u == "°C" <==> units == "metric"
    ensures u == "°C" || u == "°F"
  {
    if units == "metric" then "°C" else "°F"
  }

  /** The wind-speed label: metres per second exactly when `UNITS` is "metric". */
  function WindUnit(units: string): (u: string)
    ensures u == "м/с" <==> units == "metric"
    ensures u == "м/с" || u == "миль/год"
  {
    if units == "metric" then "м/с" else "миль/год"
  }

  /** An HTTP answer: its status code and its decoded JSON body. */
  datatype Response<T> = Response(statusCode: int, body: T)

  /**
   * The fields of `/data/2.5/weather` that are read; `description` is that of
   * the first `weather` entry, and `visibility` is `None` when the key is
   * absent or null.
   */
  datatype CurrentData = CurrentData(
    name: string, temp: real, description: string, humidity: int,
    windSpeed: real, pressure: int, visibility: Option<int>)

  /** A visibility in metres, or "Н/Д" (not available). */
  datatype Visibility = Metres(metres: int) | NotAvailable

  datatype WeatherReport = WeatherReport(
    city: string, temperature: real, description: string, humidity: int,
    windSpeed: real, pressure: int, visibility: Visibility,
    tempUnit: string, windUnit: string)

  /** A missing, null or zero visibility is shown as "Н/Д"; any other value is kept. */
  function VisibilityOf(v: Option<int>): (r: Visibility)
    ensures r == NotAvailable <==> v == None || v == Some(0)
    ensures r.Metres? ==> v == Some(r.metres) && r.metres != 0
  {
    if v.Some? && v.value != 0 then Metres(v.value) else NotAvailable
  }

  /** `get_weather`: `None` unless the status is 200, else the shaped report. */
  function GetWeather(resp: Response<CurrentData>, units: string): (r: Option<WeatherReport>)
    ensures r.Some? <==> resp.statusCode == 200
    ensures r.Some? ==> r.value.city == resp.body.name
    ensures r.Some? ==> r.value.temperature == resp.body.temp && r.value.humidity == resp.body.humidity
    ensures r.Some? ==> r.value.windSpeed == resp.body.windSpeed && r.value.pressure == resp.body.pressure
    ensures r.Some? ==> r.value.description == Translate(resp.body.description)
    ensures r.Some? ==> r.value.visibility == VisibilityOf(resp.body.visibility)
    ensures r.Some? ==> r.value.tempUnit == TempUnit(units) && r.value.windUnit == WindUnit(units)
  {
    if resp.statusCode != 200 then None
    else
      var d := resp.body;
      Some(WeatherReport(
        d.name, d.temp, Translate(d.description), d.humidity, d.windSpeed, d.pressure,
        VisibilityOf(d.visibility), TempUnit(units), WindUnit(units)))
  }

  /** One entry of the forecast's `list` (one every 3 hours). */
  datatype ForecastItem = ForecastItem(dt: int, temp: real, description: string)

  /** One day of the shaped forecast; `dt` is the entry's Unix time. */
  datatype DayForecast = DayForecast(dt: int, temperature: real, description: string, tempUnit: string)

  function DayOf(item: ForecastItem, tempUnit: string): DayForecast
  {
    DayForecast(item.dt, item.temp, Translate(item.description), tempUnit)
  }

  /** Python's `s[::8]`: the elements at positions 0, 8, 16, ... */
  function EveryEighth<T>(s: seq<T>): seq<T>
    decreases |s|
  {
    if s == [] then [] else [s[0]] + EveryEighth(if |s| <= 8 then [] else s[8..])
  }

  /** `s[::8]` has ceil(|s| / 8) elements, the k-th being `s[8 * k]`. */
  lemma {:induction false} EveryEighthAt<T>(s: seq<T>)
    decreases |s|
    ensures |EveryEighth(s)| == (|s| + 7) / 8
    ensures forall k :: 0 <= k < |EveryEighth(s)| ==> EveryEighth(s)[k] == s[8 * k]
  {
    if s != [] {
      var rest := if |s| <= 8 then [] else s[8..];
      EveryEighthAt(rest);
      forall k | 1 <= k < |EveryEighth(s)|
        ensures EveryEighth(s)[k] == s[8 * k]
      {
        assert EveryEighth(s)[k] == EveryEighth(rest)[k - 1];
      }
    }
  }

  /**
   * `get_forecast`: `None` unless the status is 200; otherwise one day per
   * eighth entry of the list, in order, translated and labelled.
   */
  method GetForecast(resp: Response<seq<ForecastItem>>, units: string) returns (r: Option<seq<DayForecast>>)
    ensures r.Some? <==> resp.statusCode == 200
    ensures r.Some? ==> |r.value| == (|resp.body| + 7) / 8
    ensures r.Some? ==> forall k :: 0 <= k < |r.value| ==> r.value[k] == DayOf(resp.body[8 * k], TempUnit(units))
  {
    if resp.statusCode != 200 {
      return None;
    }
    var items := resp.body;
    var forecast: seq<DayForecast> := [];
    var tempUnit := TempUnit(units);
    var i := 0;
    while i < |items|
      invariant 0 <= i && i % 8 == 0 && i <= |items| + 7
      invariant |forecast| == i / 8
      invariant forall k :: 0 <= k < |forecast| ==> forecast[k] == DayOf(items[8 * k], tempUnit)
    {
      forecast := forecast + [DayOf(items[i], tempUnit)];
      i := i + 8;
    }
    return Some(forecast);
  }

  /** The shaped forecast is the days of `list[::8]`, one for one. */
  lemma ForecastSamplesEveryEighth(items: seq<ForecastItem>, days: seq<DayForecast>, tempUnit: string)
    requires |days| == (|items| + 7) / 8
    requires forall k :: 0 <= k < |days| ==> days[k] == DayOf(items[8 * k], tempUnit)
    ensures |days| == |EveryEighth(items)|
    ensures forall k :: 0 <= k < |days| ==> days[k] == DayOf(EveryEighth(items)[k], tempUnit)
  {
    EveryEighthAt(items);
  }

  /** Which reply a command sends. */
  datatype Reply =
    | NoCityReply
    | FetchErrorReply
    | CurrentReply(report: WeatherReport)
    | ForecastReply(city: string, days: seq<DayForecast>)

  /** The reply, and the city the API was asked about (`None`: no request made). */
  datatype Outcome = Outcome(reply: Reply, queried: Option<string>)

  /** `weathercmd`: no city, no request; a failed request, the error reply. */
  function WeatherCmd(args: string, fetch: string -> Response<CurrentData>, units: string): (o: Outcome)
    ensures args == "" ==> o == Outcome(NoCityReply, None)
    ensures args != "" ==> o.queried == Some(args)
    ensures args != "" ==> (o.reply == FetchErrorReply <==> fetch(args).statusCode != 200)
    ensures args != "" && fetch(args).statusCode == 200 ==>
      o.reply == CurrentReply(GetWeather(fetch(args), units).value)
    ensures o.reply.CurrentReply? ==> Some(o.reply.report) == GetWeather(fetch(args), units)
  {
    if args == "" then Outcome(NoCityReply, None)
    else
      var weather := GetWeather(fetch(args), units);
      if weather.Some? then Outcome(CurrentReply(weather.value), Some(args))
      else Outcome(FetchErrorReply, Some(args))
  }

  /**
   * `forecastcmd`: no city, no request; a failed request or an empty
   * forecast both give the error reply; otherwise the days, under the city
   * as the user typed it.
   */
  method ForecastCmd(args: string, fetch: string -> Response<seq<ForecastItem>>, units: string) returns (o: Outcome)
    ensures args == "" ==> o == Outcome(NoCityReply, None)
    ensures args != "" ==> o.queried == Some(args)
    ensures args != "" ==>
      (o.reply == FetchErrorReply <==> fetch(args).statusCode != 200 || fetch(args).body == [])
    ensures args != "" && fetch(args).statusCode == 200 && fetch(args).body != [] ==>
      o.reply.ForecastReply?
    ensures o.reply.ForecastReply? ==>
      o.reply.city == args && |o.reply.days| == (|fetch(args).body| + 7) / 8 > 0
    ensures o.reply.ForecastReply? ==>
      forall k :: 0 <= k < |o.reply.days| ==> o.reply.days[k] == DayOf(fetch(args).body[8 * k], TempUnit(units))
  {
    if args == "" {
      return Outcome(NoCityReply, None);
    }
    var forecast := GetForecast(fetch(args), units);
    if forecast.Some? && forecast.value != [] {
      o := Outcome(ForecastReply(args, forecast.value), Some(args));
    } else {
      o := Outcome(FetchErrorReply, Some(args));
    }
  }
}

=== FILE: wrappers.dfy ===
/** The optional value that stands for Python's `None`-or-value returns. */
module Wrappers {

  datatype Option<+T> = None | Some(value: T)
}
